=== FILE: README.md ===
# AstroMark editor session — a Dafny model

AstroMark is a markdown editor. This project models its editor-session logic as
pure state transitions over small datatypes. It covers:

- the session's tab registry and the routing of each message (`App`);
- the file-picker dialog manager (`Dialog`);
- the recent-files list (`RecentFiles`);
- the configuration script's keys, key bindings and modifiers (`Keybinds`);
- theme-name resolution and default preferences (`Flags`);
- integer colour clamping and palettes (`Colors`);
- a document tab's update, render cache and Tab key binding (`Editor`).

Toolkit types whose internals the session does not see are opaque types in
module `Toolkit`: the text buffer, edit actions, markdown nodes, picker events,
the rest of a key press, and file-system paths. Two paths are equal exactly
when the platform's path comparison says so; the model never takes a path apart. The toolkit operations are passed in as function
values: the markdown parser, the buffer's `perform` and `text`, the widget's
default key map, and the colour-string parser. The same goes for the tab
state's `from_message`, `can_overwrite` and `update` (record `App.Screens`).
The application's `Message` and `Task` types are in module `Messages`. They
have only the variants that this logic inspects.

The model follows the code on these points, where a reader might expect otherwise:

- An "open" result from the picker does not close the dialog. Only the
  catch-all arm clears it. So a second `OpenFilePicker` after a result is not
  ignored: it closes the dialog and then goes on to the active tab.
- The Tab key always inserts `tab_len` spaces. The `expand_tabs` setting is
  not consulted.
- The markdown cache is re-parsed synchronously on every update, so it always
  matches the current text.
- The recent list's cap is the literal 10, not a setting.

## Model

| member | source | states |
|---|---|---|
| App.AddTab | src/app.rs:122-127 | the new id was not in use; it becomes active and holds the state; the tab count grows by one; existing tabs are unchanged; the id is appended to the tab bar; the id counter advances by one |
| App.TabBarVisible | src/app.rs:94 | the tab bar is shown exactly when at least two distinct tabs are open |
| App.Init | src/app.rs:60-70 | after start-up there is exactly one tab; it is active, it is the only entry of the tab order, holds the initial state, no dialog is open and the tab bar is hidden |
| App.UpdateTabs | src/app.rs:129-141 | without a live active tab or a requested state nothing changes; an overwritable active tab is replaced in place (same id, same count, same tab order and id counter); otherwise the old tab is kept and the new state gets a new active tab (count + 1) whose id is appended to the tab order |
| App.Update | src/app.rs:105-118 | the registry update happens first; a message the dialog manager claims returns its task and leaves every tab untouched; otherwise the dialog is closed, only the active tab is stepped, and the other tabs are unchanged; the tab order and the id counter are the ones the registry update left; an unclaimed message with no live active tab returns no task |
| App.RunKeepsInvariant | src/app.rs:105-141 | through any sequence of updates the active id stays a live tab and no tab is lost |
| App.SessionInvariant | src/app.rs:60-70 | from start-up on, after any sequence of messages, the active id is a live tab and at least one tab exists |
| App.OpenFromSingleTab | src/app.rs:94-96 | opening a state from the single start-up tab shows the tab bar exactly when that tab cannot be overwritten |
| Dialog.New | src/app/dialog.rs:10-12 | the manager starts with no dialog |
| Dialog.Update | src/app/dialog.rs:23-64 | returns a task exactly for the claimed messages: a picker request with no dialog open installs one; a picker event keeps dialog presence and is forwarded, or gets a no-op task when none is open; an open result keeps the dialog and yields a no-op for no paths or opens the first path; anything else closes the dialog and returns nothing |
| Dialog.SecondRequestCloses | src/app/dialog.rs:27-62 | a picker request while a dialog is open closes it and is not claimed |
| Dialog.FirstPathOnly | src/app/dialog.rs:47-57 | paths after the first selected one do not affect the outcome |
| Dialog.OpenThenForwardThenClose | src/app/dialog.rs:27-62 | a dialog opened on request keeps receiving its events, and the next unclaimed message closes it |
| RecentFiles.Default | src/utils/cfg/recent.rs:25-29 | the default list is empty |
| RecentFiles.Retain | src/utils/cfg/recent.rs:16 | removing a path never lengthens the list |
| RecentFiles.RetainCount | src/utils/cfg/recent.rs:16 | removing a path keeps every other path with its multiplicity and removes all copies of it |
| RecentFiles.RetainMembers | src/utils/cfg/recent.rs:16 | a path survives the removal exactly when it was listed and differs from the removed one |
| RecentFiles.RetainAbsent | src/utils/cfg/recent.rs:16 | removing a path that is not listed changes nothing |
| RecentFiles.RetainShorter | src/utils/cfg/recent.rs:16 | removing a listed path shortens the list, by exactly one when the list is duplicate-free |
| RecentFiles.RetainNoDup | src/utils/cfg/recent.rs:16 | removing a path keeps a duplicate-free list duplicate-free |
| RecentFiles.RetainAppend | src/utils/cfg/recent.rs:16 | the removal distributes over concatenation, so relative order is kept |
| RecentFiles.DropOldest | src/utils/cfg/recent.rs:19-21 | the oldest entries are removed until at most 10 remain: the result is a suffix of the list, a list within the cap is unchanged, and a longer one keeps exactly its newest 10 |
| RecentFiles.Added | src/utils/cfg/recent.rs:15-22 | after adding `p` it is last and occurs exactly once; the length is the old list without `p` plus one, capped at 10; the list is a suffix of the old list without `p` followed by `p`; re-adding a present path does not grow the list; duplicate-freedom is preserved |
| RecentFiles.Add | src/utils/cfg/recent.rs:15-22 | the remove-then-push-then-drop-front loop computes `Added` |
| RecentFiles.AddIdempotent | src/utils/cfg/recent.rs:15-22 | adding the same path twice equals adding it once |
| RecentFiles.AddPresentMovesToEnd | src/utils/cfg/recent.rs:16-17 | re-adding a listed path of a duplicate-free list moves it to the end, and the length stays the same |
| RecentFiles.AddAtCapEvictsOldest | src/utils/cfg/recent.rs:19-21 | a new path added to a full list drops exactly the oldest entry |
| RecentFiles.AddBelowCapKeepsAll | src/utils/cfg/recent.rs:15-22 | below the cap no path is lost |
| Keybinds.NewKey | src/utils/cfg/script/keybinds.rs:19-21 | a key's name is the script string verbatim |
| Keybinds.KeysOf | src/utils/cfg/script/keybinds.rs:25-32 | a key is kept exactly when it occurs as a key item of the array; the result is never longer than the array |
| Keybinds.KeysOfAppend | src/utils/cfg/script/keybinds.rs:26-29 | the item filter distributes over concatenation, so the original order is kept |
| Keybinds.KeysOfAllKeys | src/utils/cfg/script/keybinds.rs:26-29 | an array made only of keys yields exactly those keys |
| Keybinds.NewKeybind | src/utils/cfg/script/keybinds.rs:25-32 | the binding keeps its key, and its modifiers are the key items of the array |
| Keybinds.ToKeyboardKey | src/utils/cfg/script/keybinds.rs:35-40 | a key always becomes a character key |
| Keybinds.ToKeyboardKeyInjective | src/utils/cfg/script/keybinds.rs:35-40 | distinct keys give distinct character keys |
| Keybinds.KeyFromString | src/utils/cfg/script/keybinds.rs:35-55 | a script string reaches the toolkit as the identical character string, and is a modifier exactly when it is "Super", "Ctrl", "Alt" or "Shift" (case-sensitive) |
| Keybinds.ToModifier | src/utils/cfg/script/keybinds.rs:42-55 | a key is a modifier exactly when its name is one of the four constants, and the modifier is the one that constant names; every other key gives none |
| Keybinds.ModifierRoundTrip | src/utils/cfg/script/keybinds.rs:79-84 | each modifier constant converts back to its own modifier |
| Keybinds.ModifiersOf | src/utils/cfg/script/keybinds.rs:61-65 | only recognised modifiers are kept, and the result is never longer than the input |
| Keybinds.ModifiersOfAppend | src/utils/cfg/script/keybinds.rs:61-65 | the modifier filter distributes over concatenation, so order is kept |
| Keybinds.ModifiersOfConstants | src/utils/cfg/script/keybinds.rs:61-65 | a list of modifier constants converts back to exactly its modifiers, in order |
| Keybinds.ToMenuBind | src/utils/cfg/script/keybinds.rs:57-68 | the menu key is the converted bind key; the menu modifiers are the recognised modifiers and are never more than the bind's |
| Flags.Lower | src/utils/cfg/flags.rs:20 | lower-casing keeps the length and maps each character independently |
| Flags.TrimStart | src/utils/cfg/flags.rs:20 | the result is a suffix, what was removed is all white space, and it does not start with white space |
| Flags.TrimEnd | src/utils/cfg/flags.rs:20 | the result is a prefix, what was removed is all white space, and it does not end with white space |
| Flags.Trim | src/utils/cfg/flags.rs:20 | the trimmed setting neither starts nor ends with white space |
| Flags.ThemeOf | src/utils/cfg/flags.rs:20-31 | a theme's exact name selects it; any other name selects Base16Eighties |
| Flags.Highlight | src/utils/cfg/flags.rs:19-32 | the theme whose name equals the trimmed, lower-cased setting, else Base16Eighties |
| Flags.HighlightIff | src/utils/cfg/flags.rs:20-26 | a theme other than the fallback is chosen exactly when the normalised setting is its name |
| Flags.HighlightIgnoresCase | src/utils/cfg/flags.rs:20 | settings that differ only in letter case select the same theme |
| Flags.HighlightIgnoresPadding | src/utils/cfg/flags.rs:20 | leading and trailing white space do not change the theme |
| Flags.TrimPadding | src/utils/cfg/flags.rs:20 | padding around a string does not change its trimmed form |
| Flags.TrimExactly | src/utils/cfg/flags.rs:20 | trimming a string that is white space, then text with no white space at either end, then white space returns exactly that text; an all-white-space string trims to the empty string |
| Flags.Default | src/utils/cfg/flags.rs:35-44 | default tab width 4, tabs not expanded, highlight named "base16eighties" |
| Flags.DefaultHighlight | src/utils/cfg/flags.rs:41 | the default setting resolves to Base16Eighties |
| Colors.TryFromInt64 | src/utils/cfg/script/color.rs:27-29 | the narrowing succeeds exactly for 0..=255 and keeps the value |
| Colors.Channel | src/utils/cfg/script/color.rs:16-25 | a channel in 0..=255 is kept; a negative channel or one above 255 becomes 0 |
| Colors.ColorFromInts | src/utils/cfg/script/color.rs:15-32 | each byte channel is its argument when that is in 0..=255, else 0 |
| Colors.ChannelsIndependent | src/utils/cfg/script/color.rs:27-29 | each channel depends only on its own argument |
| Colors.ColorRoundTrip | src/utils/cfg/script/color.rs:15-32 | every byte colour is reproduced from its own channels |
| Colors.ColorFromString | src/utils/cfg/script/color.rs:8-13 | the parsed colour when parsing succeeds, else black |
| Colors.MakePalette | src/utils/cfg/script/color.rs:34-48 | the five arguments become background, text, primary, success and danger, in that order |
| Colors.PaletteRoundTrip | src/utils/cfg/script/color.rs:34-48 | every palette is rebuilt from its roles in that order |
| Editor.New | src/app/state/editor.rs:31-37 | a new editor has the empty buffer, an empty render cache, and the given placeholder |
| Editor.NewSynced | src/app/state/editor.rs:31-37 | given that the empty buffer has no text and the empty text parses to nothing, the new editor's cache is in sync |
| Editor.Update | src/app/state/editor.rs:60-80 | an edit changes the buffer only via `perform`; any other message leaves it alone; afterwards the cache equals the parse of the current text; no task is returned |
| Editor.NonEditIdempotent | src/app/state/editor.rs:62-77 | a message other than an edit leaves an in-sync editor unchanged, and receiving it twice equals receiving it once |
| Editor.KeyBindings | src/app/state/editor.rs:83-97 | Tab gives a sequence of exactly `tab_len` single-space insertions; any other key gets the widget's default binding unchanged |
| Editor.TabTypesSpaces | src/app/state/editor.rs:87-92 | the Tab binding types exactly `tab_len` spaces, whatever `expand_tabs` says |
| Editor.SpacesTypeSpaces | src/app/state/editor.rs:91 | a sequence of single-space insertions types that many spaces |

## Left out

- Process start-up, command-line parsing and logging are not modelled (src/main.rs, src/init.rs, src/utils/init.rs). Neither are the startup callback and the panic when the window id is missing.
- Translation lookup (src/trans.rs) is global and foreign. The editor's placeholder text is a parameter.
- File-system access and serialisation are not modelled (src/utils.rs, src/utils/cfg.rs, `Recent::read`). That includes the fallback to defaults on a read or parse error.
- The scripting engine's setup and script evaluation are not modelled (src/utils/cfg/script.rs, src/utils/cfg/script/engine.rs). The script's dynamic values appear only as `Keybinds.Dynamic`.
- App.Update: where the active tab has no state, the source panics in `current_state`, called by `update_header_title` before the dialog manager runs. The model instead carries on and returns no task, as the final `else` arm of `update` would.
- The UI is not modelled: `view`, `view_window`, the menu bar, header titles, and the home screen (src/app/state/home.rs). `current_state` panics when the active tab has no state. `App.SessionInvariant` shows that this cannot happen after `init`. The one exception is the condition for showing the tab bar, `App.TabBarVisible`.
- Opening a URL with the system handler is an external side effect. In the model a `Url` message only re-renders.
- Floating point is not modelled: text size, `Flags::space`, the conversion to f32 in `Color::from_rgb8`, and the internals of `Color::parse`. A colour is its three byte channels, and black is (0, 0, 0).
- Flags.Highlight: lower-casing and trimming are modelled over ASCII only. Non-ASCII letters and Unicode white space other than 9 to 13 and 32 are treated as ordinary characters.
- State::update also receives the configuration mutably. The model's `step` takes only the state and the message, because the editor ignores the configuration.
- The segmented-button model's id minting is modelled as a counter that never reuses an id. The tab label text is not modelled.
- `State` and its operations `State::new`, `State::from_message`, `State::can_overwrite` and `State::update` are parameters of the model (`App.Screens`).
- These do not appear in the modelled code: closing a tab and choosing the next active tab, the asynchronous re-parse, a configurable cap for the recent list, keybinding tables with first-match lookup, and a save-file picker.
- The scripting-engine modules for palettes and modifiers are not modelled (the `palettes` list). Only the four modifier constants are modelled.

=== FILE: app.dfy ===
/** The session controller: the registry of open tabs, the active tab, and
    the routing of each message through the registry, the dialog manager
    and the active tab. The tab states themselves are abstract: whether a
    message opens a new state, whether a state may be replaced in place, and
    how a state reacts to a message are supplied as functions. */
module App {
  import opened Toolkit
  import opened Messages
  import Dialog

  /** Tab identifiers are minted by a counter and never reused; 0 is the
      identifier the tab bar reports before any tab exists. */
  type TabId = nat

  const NullTab: TabId := 0

  /** What the session needs to know about its tab states: the state a new
      session opens with, the state a message asks to open (if any), whether
      a state may be replaced in place, and a state's own update. */
  datatype Screens<!S> = Screens(
    initial: S,
    fromMessage: Message -> Option<S>,
    canOverwrite: S -> bool,
    step: (S, Message) -> (S, Task))

  /** `order` is the tab bar's presentation order. */
  datatype Session<S> = Session(
    order: seq<TabId>,
    active: TabId,
    tabs: map<TabId, S>,
    dialog: Dialog.Manager,
    next: TabId)

  /** Every identifier in use was minted before `next`, and the tab bar and
      the registry hold the same identifiers. */
  predicate Minted<S>(s: Session<S>) {
    && NullTab < s.next
    && (forall id :: id in s.tabs ==> NullTab < id < s.next)
    && (forall id :: id in s.order ==> id in s.tabs)
    && (forall id :: id in s.tabs ==> id in s.order)
  }

  /** The session invariant: ids are well minted and the active id is live. */
  predicate Valid<S>(s: Session<S>) {
    Minted(s) && s.active in s.tabs
  }

  /** The tab bar is shown only when there is more than one tab. */
  function TabBarVisible<S>(s: Session<S>): (shown: bool)
    ensures shown <==> exists a, b :: a in s.tabs && b in s.tabs && a != b
  {
    TwoKeys(s.tabs);
    |s.tabs| > 1
  }

  /** A map has more than one entry exactly when it has two distinct keys. */
  lemma TwoKeys<S>(m: map<TabId, S>)
    ensures |m| > 1 <==> exists a, b :: a in m && b in m && a != b
  {
    if |m| > 1 {
      var a :| a in m;
      var rest := m.Keys - {a};
      assert |rest| == |m.Keys| - 1;
      var b :| b in rest;
      assert a in m && b in m && a != b;
    }
    if exists a, b :: a in m && b in m && a != b {
      var a, b :| a in m && b in m && a != b;
      assert {a, b} <= m.Keys;
      assert |{a, b}| == 2;
      SubsetCard({a, b}, m.Keys);
    }
  }

  lemma SubsetCard(small: set<TabId>, big: set<TabId>)
    requires small <= big
    ensures |small| <= |big|
  {
    assert big == small + (big - small);
  }

  /** `add_tab`: mint a fresh id, append it to the tab bar, activate it and
      store the state under it. */
  function AddTab<S>(s: Session<S>, state: S): (r: Session<S>)
    requires Minted(s)
    ensures Minted(r) && Valid(r)
    ensures r.active !in s.tabs && r.tabs[r.active] == state
    ensures r.tabs.Keys == s.tabs.Keys + {r.active}
    ensures |r.tabs| == |s.tabs| + 1
    ensures forall id :: id in s.tabs ==> r.tabs[id] == s.tabs[id]
    ensures r.order == s.order + [r.active]
    ensures r.dialog == s.dialog
    ensures r.next == s.next + 1
  {
    var id := s.next;
    assert id !in s.tabs;
    Session(s.order + [id], id, s.tabs[id := state], s.dialog, s.next + 1)
  }

  /** The session before its first tab. */
  function Empty<S>(): (s: Session<S>)
    ensures Minted(s) && |s.tabs| == 0
  {
    Session([], NullTab, map[], Dialog.New(), NullTab + 1)
  }

  /** `AstroMark::init`, tab setup only: exactly one tab, holding the
      initial state, and it is the active one. */
  function Init<S>(sc: Screens<S>): (s: Session<S>)
    ensures Valid(s)
    ensures |s.tabs| == 1 && s.tabs.Keys == {s.active}
    ensures s.order == [s.active]
    ensures s.tabs[s.active] == sc.initial
    ensures s.dialog.picker.None?
    ensures !TabBarVisible(s)
  {
    AddTab(Empty(), sc.initial)
  }

  /** `update_tabs`: a message that asks for a new state either replaces an
      overwritable active tab in place or opens the state in a new active
      tab. */
  function UpdateTabs<S>(sc: Screens<S>, s: Session<S>, msg: Message): (r: Session<S>)
    requires Minted(s)
    ensures Minted(r)
    ensures Valid(s) ==> Valid(r)
    ensures r.dialog == s.dialog
    ensures s.active !in s.tabs || sc.fromMessage(msg).None? ==> r == s
    ensures s.active in s.tabs && sc.fromMessage(msg).Some? && sc.canOverwrite(s.tabs[s.active]) ==>
      && r.active == s.active && r.order == s.order && r.next == s.next
      && r.tabs.Keys == s.tabs.Keys && |r.tabs| == |s.tabs|
      && r.tabs[r.active] == sc.fromMessage(msg).value
      && (forall id :: id in s.tabs && id != s.active ==> r.tabs[id] == s.tabs[id])
    ensures s.active in s.tabs && sc.fromMessage(msg).Some? && !sc.canOverwrite(s.tabs[s.active]) ==>
      && r.active !in s.tabs && r.order == s.order + [r.active]
      && r.tabs.Keys == s.tabs.Keys + {r.active} && |r.tabs| == |s.tabs| + 1
      && r.tabs[r.active] == sc.fromMessage(msg).value
      && (forall id :: id in s.tabs ==> r.tabs[id] == s.tabs[id])
  {
    if s.active !in s.tabs then s
    else match sc.fromMessage(msg)
      case None => s
      case Some(state) =>
        if sc.canOverwrite(s.tabs[s.active]) then
          assert s.tabs[s.active := state].Keys == s.tabs.Keys;
          s.(tabs := s.tabs[s.active := state])
        else AddTab(s, state)
  }

  /** `AstroMark::update`: the registry reacts first; then the dialog
      manager may claim the message, and only an unclaimed message reaches
      the active tab. */
  function Update<S>(sc: Screens<S>, s: Session<S>, msg: Message): (r: (Session<S>, Task))
    requires Minted(s)
    ensures Minted(r.0)
    ensures Valid(s) ==> Valid(r.0)
    ensures r.0.active == UpdateTabs(sc, s, msg).active
    ensures r.0.tabs.Keys == UpdateTabs(sc, s, msg).tabs.Keys
    ensures r.0.order == UpdateTabs(sc, s, msg).order && r.0.next == UpdateTabs(sc, s, msg).next
    ensures r.0.dialog == Dialog.Update(s.dialog, msg).0
    ensures Dialog.Claims(s.dialog, msg) ==>
      r.0.tabs == UpdateTabs(sc, s, msg).tabs && r.1 == Dialog.Update(s.dialog, msg).1.value
    ensures !Dialog.Claims(s.dialog, msg) ==> r.0.dialog.picker.None?
    ensures var s1 := UpdateTabs(sc, s, msg);
      forall id :: id in s1.tabs && id != s1.active ==> r.0.tabs[id] == s1.tabs[id]
    ensures var s1 := UpdateTabs(sc, s, msg);
      !Dialog.Claims(s.dialog, msg) && s1.active in s1.tabs ==>
        (r.0.tabs[s1.active], r.1) == sc.step(s1.tabs[s1.active], msg)
    ensures var s1 := UpdateTabs(sc, s, msg);
      !Dialog.Claims(s.dialog, msg) && s1.active !in s1.tabs ==> r.1 == NoTask
  {
    var s1 := UpdateTabs(sc, s, msg);
    var (dialog, claimed) := Dialog.Update(s1.dialog, msg);
    if claimed.Some? then (s1.(dialog := dialog), claimed.value)
    else if s1.active in s1.tabs then
      var (state, task) := sc.step(s1.tabs[s1.active], msg);
      assert s1.tabs[s1.active := state].Keys == s1.tabs.Keys;
      (s1.(dialog := dialog, tabs := s1.tabs[s1.active := state]), task)
    else (s1.(dialog := dialog), NoTask)
  }

  /** The session after a run of messages; the tasks they return are dropped. */
  function Run<S>(sc: Screens<S>, s: Session<S>, msgs: seq<Message>): (r: Session<S>)
    requires Minted(s)
    ensures Minted(r)
    decreases |msgs|
  {
    if |msgs| == 0 then s
    else Run(sc, Update(sc, s, msgs[0]).0, msgs[1..])
  }

  /** From `init` onwards, through any run of messages, the active id is a
      live tab and no tab is ever lost. */
  lemma {:induction false} RunKeepsInvariant<S>(sc: Screens<S>, s: Session<S>, msgs: seq<Message>)
    requires Valid(s)
    ensures Valid(Run(sc, s, msgs))
    ensures s.tabs.Keys <= Run(sc, s, msgs).tabs.Keys
    decreases |msgs|
  {
    if |msgs| > 0 {
      RunKeepsInvariant(sc, Update(sc, s, msgs[0]).0, msgs[1..]);
    }
  }

  lemma SessionInvariant<S>(sc: Screens<S>, msgs: seq<Message>)
    ensures Valid(Run(sc, Init(sc), msgs))
    ensures |Run(sc, Init(sc), msgs).tabs| >= 1
  {
    RunKeepsInvariant(sc, Init(sc), msgs);
  }

  /** Opening a state from an overwritable single tab keeps the tab bar
      hidden; from a tab that cannot be overwritten it shows the bar. */
  lemma OpenFromSingleTab<S>(sc: Screens<S>, msg: Message)
    requires sc.fromMessage(msg).Some?
    ensures var s := UpdateTabs(sc, Init(sc), msg);
      TabBarVisible(s) <==> !sc.canOverwrite(sc.initial)
  {
  }
}

=== FILE: color.dfy ===
/** Colours and palettes built by the configuration script. A colour is
    modelled by its three 8-bit channels; the toolkit's conversion to
    floating point is not part of the model. */
module Colors {
  import opened Toolkit

  type int64 = x: int | -0x8000_0000_0000_0000 <= x < 0x8000_0000_0000_0000
  type uint8 = x: int | 0 <= x < 0x100

  datatype Color = Color(r: uint8, g: uint8, b: uint8)

  const Black: Color := Color(0, 0, 0)

  datatype Palette = Palette(background: Color, text: Color, primary: Color, success: Color, danger: Color)

  /** The outcome of a checked narrowing conversion. */
  datatype Narrowed = InRange(value: uint8) | OutOfRange

  /** Checked conversion of a 64-bit integer to a byte. */
  function TryFromInt64(x: int64): (r: Narrowed)
    ensures r.InRange? <==> 0 <= x < 0x100
    ensures r.InRange? ==> r.value == x
  {
    if 0 <= x < 0x100 then InRange(x) else OutOfRange
  }

  /** A channel value, or 0 (with a warning) when it does not fit a byte. */
  function Channel(x: int64): (c: uint8)
    ensures 0 <= x <= 255 ==> c == x
    ensures (x < 0 || x > 255) ==> c == 0
  {
    match TryFromInt64(x)
    case InRange(v) => v
    case OutOfRange => 0
  }

  /** The script's `color(r, g, b)`. */
  function ColorFromInts(r: int64, g: int64, b: int64): (c: Color)
    ensures 0 <= r <= 255 ==> c.r == r
    ensures 0 <= g <= 255 ==> c.g == g
    ensures 0 <= b <= 255 ==> c.b == b
    ensures (r < 0 || r > 255) ==> c.r == 0
    ensures (g < 0 || g > 255) ==> c.g == 0
    ensures (b < 0 || b > 255) ==> c.b == 0
  {
    Color(Channel(r), Channel(g), Channel(b))
  }

  /** Each channel depends on its own argument only. */
  lemma ChannelsIndependent(r: int64, g: int64, b: int64, r': int64, g': int64, b': int64)
    ensures ColorFromInts(r, g, b).r == ColorFromInts(r, g', b').r
    ensures ColorFromInts(r, g, b).g == ColorFromInts(r', g, b').g
    ensures ColorFromInts(r, g, b).b == ColorFromInts(r', g', b).b
  {
  }

  /** Every colour is reproduced from its own channel values. */
  lemma ColorRoundTrip(c: Color)
    ensures ColorFromInts(c.r, c.g, c.b) == c
  {
  }

  /** The script's `color(string)`: the parsed colour, or black when the
      toolkit's parser rejects the string. */
  function ColorFromString(parse: string -> Option<Color>, s: string): (c: Color)
    ensures parse(s).Some? ==> c == parse(s).value
    ensures parse(s).None? ==> c == Black
  {
    match parse(s)
    case Some(v) => v
    case None => Black
  }

  /** The script's `palette(...)`, taking its roles positionally. */
  function MakePalette(background: Color, text: Color, primary: Color, success: Color, danger: Color): (p: Palette)
    ensures p.background == background && p.text == text && p.primary == primary
    ensures p.success == success && p.danger == danger
  {
    Palette(background, text, primary, success, danger)
  }

  /** Every palette is built by passing its roles in the documented order. */
  lemma PaletteRoundTrip(p: Palette)
    ensures MakePalette(p.background, p.text, p.primary, p.success, p.danger) == p
  {
  }
}

=== FILE: dialog.dfy ===
/** The dialog manager: at most one file picker, and the routing of the
    picker's messages ahead of the active tab. */
module Dialog {
  import opened Toolkit
  import opened Messages

  /** An open picker. Its internal state belongs to the toolkit; the model
      records the kind and the events forwarded to it. */
  datatype Picker = Picker(kind: DialogKind, received: seq<DialogEvent>)

  datatype Manager = Manager(picker: Option<Picker>)

  /** `DialogManager::new`. */
  function New(): (m: Manager)
    ensures m.picker.None?
  {
    Manager(None)
  }

  /** The messages the manager claims: a picker request while none is open,
      any picker event, and an "open" result. */
  predicate Claims(m: Manager, msg: Message) {
    || (msg.OpenFilePicker? && m.picker.None?)
    || msg.DialogMessage?
    || (msg.OpenFileResult? && msg.result.Open?)
  }

  /** `DialogManager::update`: the new manager and, for a claimed message,
      the task that pre-empts the active tab. */
  function Update(m: Manager, msg: Message): (r: (Manager, Option<Task>))
    ensures r.1.Some? <==> Claims(m, msg)
    ensures !Claims(m, msg) ==> r.0.picker.None?
    ensures msg.OpenFilePicker? && m.picker.None? ==>
      r.0.picker == Some(Picker(OpenFile, [])) && r.1 == Some(DialogOpened(OpenFile))
    ensures msg.DialogMessage? ==> r.0.picker.Some? == m.picker.Some?
    ensures msg.DialogMessage? && m.picker.Some? ==>
      r.0.picker.value.received == m.picker.value.received + [msg.event]
      && r.1 == Some(DialogForwarded(msg.event))
    ensures msg.DialogMessage? && m.picker.None? ==> r == (m, Some(NoTask))
    ensures msg.OpenFileResult? && msg.result.Open? ==> r.0 == m
    ensures msg.OpenFileResult? && msg.result.Open? && |msg.result.paths| == 0 ==> r.1 == Some(NoTask)
    ensures msg.OpenFileResult? && msg.result.Open? && |msg.result.paths| > 0 ==>
      r.1 == Some(Done(OpenEditor(Some(msg.result.paths[0]))))
  {
    if msg.OpenFilePicker? && m.picker.None? then
      (Manager(Some(Picker(OpenFile, []))), Some(DialogOpened(OpenFile)))
    else match msg
      case DialogMessage(event) =>
        (match m.picker
         case Some(p) => (Manager(Some(p.(received := p.received + [event]))), Some(DialogForwarded(event)))
         case None => (m, Some(NoTask)))
      case OpenFileResult(Open(paths)) =>
        if |paths| == 0 then (m, Some(NoTask))
        else (m, Some(Done(OpenEditor(Some(paths[0])))))
      case _ => (Manager(None), None)
  }

  /** A second picker request is not ignored: it closes the open picker and
      is passed on to the active tab. */
  lemma SecondRequestCloses(m: Manager)
    requires m.picker.Some?
    ensures Update(m, OpenFilePicker) == (Manager(None), None)
  {
  }

  /** Only the first selected path matters. */
  lemma FirstPathOnly(m: Manager, p: Path, rest: seq<Path>, rest': seq<Path>)
    ensures Update(m, OpenFileResult(Open([p] + rest))) == Update(m, OpenFileResult(Open([p] + rest')))
  {
  }

  /** A picker opened on an empty manager closes again on the next message
      the manager does not claim; in between, picker events keep it open. */
  lemma {:induction false} OpenThenForwardThenClose(events: seq<DialogEvent>, other: Message)
    requires !Claims(Manager(Some(Picker(OpenFile, []))), other)
    ensures var m := Forward(Update(New(), OpenFilePicker).0, events);
      m.picker == Some(Picker(OpenFile, events)) && Update(m, other).0.picker.None?
  {
    ForwardKeepsOpen(Picker(OpenFile, []), events);
    assert [] + events == events;
  }

  /** The manager after a run of picker events. */
  function Forward(m: Manager, events: seq<DialogEvent>): Manager
    decreases |events|
  {
    if |events| == 0 then m
    else Forward(Update(m, DialogMessage(events[0])).0, events[1..])
  }

  lemma {:induction false} ForwardKeepsOpen(p: Picker, events: seq<DialogEvent>)
    ensures Forward(Manager(Some(p)), events) == Manager(Some(p.(received := p.received + events)))
    decreases |events|
  {
    if |events| > 0 {
      var p' := p.(received := p.received + [events[0]]);
      ForwardKeepsOpen(p', events[1..]);
      assert p.received + [events[0]] + events[1..] == p.received + events;
    } else {
      assert p.received + events == p.received;
    }
  }
}

=== FILE: editor.dfy ===
/** One open document: a text buffer, its placeholder, and a cache of the
    rendered markdown kept equal to the parse of the current text. */
module Editor {
  import opened Toolkit
  import opened Messages
  import Flags

  /** The text editor's key bindings (a subset of the toolkit's). */
  datatype Binding =
    | Insert(c: char)
    | Enter
    | BackspaceKey
    | DeleteKey
    | Sequence(steps: seq<Binding>)
    | OtherBinding(code: nat)

  /** The toolkit operations the editor relies on. `text` reads a buffer's
      plain text, `perform` applies an editing action, `parse` is the
      markdown parser, and `fromKeyPress` is the widget's default key map. */
  datatype TextKit = TextKit(
    empty: Content,
    text: Content -> string,
    perform: (Content, EditAction) -> Content,
    parse: string -> seq<MdItem>,
    fromKeyPress: KeyPress -> Option<Binding>)

  datatype Editor = Editor(placeholder: string, content: Content, md: seq<MdItem>)

  /** The render cache holds the parse of the current text. */
  predicate Synced(kit: TextKit, e: Editor) {
    e.md == kit.parse(kit.text(e.content))
  }

  /** `Editor::new`: an empty buffer and an empty render cache; the
      placeholder is the translated default text. */
  function New(kit: TextKit, placeholder: string): (e: Editor)
    ensures e.content == kit.empty && |e.md| == 0
    ensures e.placeholder == placeholder
  {
    Editor(placeholder, kit.empty, [])
  }

  /** A fresh editor is already in sync when the empty buffer has no text
      and the empty text parses to nothing. */
  lemma NewSynced(kit: TextKit, placeholder: string)
    requires kit.text(kit.empty) == "" && kit.parse("") == []
    ensures Synced(kit, New(kit, placeholder))
  {
  }

  /** `Editor::update`: an edit goes to the buffer, any other message leaves
      it alone (opening a link is a side effect outside the model); the
      cache is then re-parsed and no task is returned. */
  function Update(kit: TextKit, e: Editor, msg: Message): (r: (Editor, Task))
    ensures Synced(kit, r.0)
    ensures r.1 == NoTask
    ensures r.0.placeholder == e.placeholder
    ensures msg.Edit? ==> r.0.content == kit.perform(e.content, msg.action)
    ensures !msg.Edit? ==> r.0.content == e.content
  {
    var content := match msg
      case Edit(action) => kit.perform(e.content, action)
      case _ => e.content;
    (e.(content := content, md := kit.parse(kit.text(content))), NoTask)
  }

  /** A message that is not an edit changes nothing once the cache is in
      sync, so receiving it twice is the same as receiving it once. */
  lemma NonEditIdempotent(kit: TextKit, e: Editor, msg: Message)
    requires !msg.Edit?
    ensures Synced(kit, e) ==> Update(kit, e, msg).0 == e
    ensures Update(kit, Update(kit, e, msg).0, msg).0 == Update(kit, e, msg).0
  {
  }

  /** The text a binding types, in order. */
  function InsertedText(bs: seq<Binding>): string
    decreases bs
  {
    if |bs| == 0 then ""
    else
      var head := match bs[0]
        case Insert(c) => [c]
        case Sequence(steps) => InsertedText(steps)
        case _ => "";
      head + InsertedText(bs[1..])
  }

  /** `key_bindings`: Tab becomes `tab_len` inserted spaces; every other key
      keeps the widget's default binding. */
  function KeyBindings(kit: TextKit, flags: Flags.Flags, kp: KeyPress): (r: Option<Binding>)
    ensures kp.key == Named(Tab) ==> r.Some? && r.value.Sequence?
    ensures kp.key == Named(Tab) ==> |r.value.steps| == flags.tabLen
    ensures kp.key == Named(Tab) ==> forall i :: 0 <= i < |r.value.steps| ==> r.value.steps[i] == Insert(' ')
    ensures kp.key != Named(Tab) ==> r == kit.fromKeyPress(kp)
  {
    if kp.key == Named(Tab) then Some(Sequence(seq(flags.tabLen, _ => Insert(' '))))
    else kit.fromKeyPress(kp)
  }

  /** The Tab binding types exactly `tab_len` spaces, whatever `expand_tabs`
      says. */
  lemma TabTypesSpaces(kit: TextKit, flags: Flags.Flags, kp: KeyPress)
    requires kp.key == Named(Tab)
    ensures InsertedText([KeyBindings(kit, flags, kp).value]) == seq(flags.tabLen, _ => ' ')
    ensures KeyBindings(kit, flags, kp) == KeyBindings(kit, flags.(expandTabs := !flags.expandTabs), kp)
  {
    var steps := KeyBindings(kit, flags, kp).value.steps;
    SpacesTypeSpaces(steps);
    assert [KeyBindings(kit, flags, kp).value][1..] == [];
  }

  lemma {:induction false} SpacesTypeSpaces(steps: seq<Binding>)
    requires forall i :: 0 <= i < |steps| ==> steps[i] == Insert(' ')
    ensures InsertedText(steps) == seq(|steps|, _ => ' ')
  {
    if |steps| > 0 {
      SpacesTypeSpaces(steps[1..]);
      assert seq(|steps|, _ => ' ') == [' '] + seq(|steps| - 1, _ => ' ');
    }
  }
}

=== FILE: flags.dfy ===
/** Editor preferences produced by the configuration script, and the
    resolution of the syntax-highlight theme name. Letter case and white
    space are treated over ASCII only. */
module Flags {

  /** The syntax-highlight themes the toolkit offers. */
  datatype Theme = Base16Eighties | Base16Mocha | Base16Ocean | InspiredGitHub | SolarizedDark

  /** The non-floating-point preferences. */
  datatype Flags = Flags(tabLen: nat, expandTabs: bool, highlight: string)

  /** The lower-case spelling under which each theme is recognised. */
  function ThemeName(t: Theme): string {
    match t
    case Base16Eighties => "base16eighties"
    case Base16Mocha => "base16mocha"
    case Base16Ocean => "base16ocean"
    case InspiredGitHub => "inspiredgithub"
    case SolarizedDark => "solarizeddark"
  }

  function LowerChar(c: char): char {
    if 'A' <= c <= 'Z' then (c as int + 32) as char else c
  }

  /** ASCII lower-casing, character by character. */
  function Lower(s: string): (r: string)
    ensures |r| == |s|
    ensures forall i :: 0 <= i < |s| ==> r[i] == LowerChar(s[i])
  {
    seq(|s|, i requires 0 <= i < |s| => LowerChar(s[i]))
  }

  /** ASCII white space: tab, line feed, vertical tab, form feed, carriage
      return and space. */
  predicate IsSpace(c: char) {
    c == ' ' || 9 <= c as int <= 13
  }

  predicate AllSpace(s: string) {
    forall i :: 0 <= i < |s| ==> IsSpace(s[i])
  }

  /** `s` without its leading white space. */
  function TrimStart(s: string): (r: string)
    ensures |r| <= |s| && r == s[|s| - |r|..]
    ensures AllSpace(s[..|s| - |r|])
    ensures |r| == 0 || !IsSpace(r[0])
  {
    if |s| > 0 && IsSpace(s[0]) then TrimStart(s[1..]) else s
  }

  /** `s` without its trailing white space. */
  function TrimEnd(s: string): (r: string)
    ensures |r| <= |s| && r == s[..|r|]
    ensures AllSpace(s[|r|..])
    ensures |r| == 0 || !IsSpace(r[|r| - 1])
  {
    if |s| > 0 && IsSpace(s[|s| - 1]) then TrimEnd(s[..|s| - 1]) else s
  }

  /** `s` without leading or trailing white space. */
  function Trim(s: string): (r: string)
    ensures |r| == 0 || (!IsSpace(r[0]) && !IsSpace(r[|r| - 1]))
  {
    TrimEnd(TrimStart(s))
  }

  /** `Flags::highlight`: the theme named by the trimmed, lower-cased
      setting; any other name falls back to Base16Eighties. */
  function Highlight(f: Flags): (t: Theme)
    ensures forall u :: ThemeName(u) == Trim(Lower(f.highlight)) ==> t == u
    ensures (forall u :: ThemeName(u) != Trim(Lower(f.highlight))) ==> t == Base16Eighties
  {
    ThemeOf(Trim(Lower(f.highlight)))
  }

  /** The theme whose name is exactly `key`, Base16Eighties if none. */
  function ThemeOf(key: string): (t: Theme)
    ensures forall u :: ThemeName(u) == key ==> t == u
    ensures (forall u :: ThemeName(u) != key) ==> t == Base16Eighties
  {
    if key == "base16eighties" then Base16Eighties
    else if key == "base16mocha" then assert ThemeName(Base16Mocha) == key; Base16Mocha
    else if key == "base16ocean" then assert ThemeName(Base16Ocean) == key; Base16Ocean
    else if key == "inspiredgithub" then assert ThemeName(InspiredGitHub) == key; InspiredGitHub
    else if key == "solarizeddark" then assert ThemeName(SolarizedDark) == key; SolarizedDark
    else Base16Eighties
  }

  /** `Default for Flags`. */
  function Default(): (f: Flags)
    ensures f.tabLen == 4 && !f.expandTabs
    ensures f.highlight == ThemeName(Base16Eighties)
  {
    Flags(4, false, "base16eighties")
  }

  /** The default setting resolves to Base16Eighties. */
  lemma DefaultHighlight()
    ensures Highlight(Default()) == Base16Eighties
  {
    var s := Default().highlight;
    assert s == "base16eighties";
    assert forall i :: 0 <= i < |s| ==> 'a' <= s[i] <= 'z' || '0' <= s[i] <= '9';
    LowerKeepsLower(s);
    TrimKeepsInner(s);
  }

  lemma LowerKeepsLower(s: string)
    requires forall i :: 0 <= i < |s| ==> 'a' <= s[i] <= 'z' || '0' <= s[i] <= '9'
    ensures Lower(s) == s
  {
  }

  lemma TrimKeepsInner(s: string)
    requires |s| > 0 && !IsSpace(s[0]) && !IsSpace(s[|s| - 1])
    ensures Trim(s) == s
  {
    assert TrimStart(s) == s;
  }

  /** A theme other than the fallback is chosen exactly when the setting,
      trimmed and lower-cased, is that theme's name. */
  lemma HighlightIff(f: Flags, t: Theme)
    requires t != Base16Eighties
    ensures Highlight(f) == t <==> Trim(Lower(f.highlight)) == ThemeName(t)
  {
  }

  /** Two settings that differ only in ASCII letter case select the same
      theme. */
  lemma HighlightIgnoresCase(f: Flags, g: Flags)
    requires |f.highlight| == |g.highlight|
    requires forall i :: 0 <= i < |f.highlight| ==> LowerChar(f.highlight[i]) == LowerChar(g.highlight[i])
    ensures Highlight(f) == Highlight(g)
  {
    assert Lower(f.highlight) == Lower(g.highlight);
  }

  /** Leading and trailing white space around the setting is ignored. */
  lemma HighlightIgnoresPadding(f: Flags, before: string, after: string)
    requires AllSpace(before) && AllSpace(after)
    ensures Highlight(f.(highlight := before + f.highlight + after)) == Highlight(f)
  {
    var s := f.highlight;
    LowerAppend(before, s);
    LowerAppend(before + s, after);
    LowerSpace(before);
    LowerSpace(after);
    TrimPadding(Lower(before), Lower(s), Lower(after));
  }

  lemma LowerAppend(a: string, b: string)
    ensures Lower(a + b) == Lower(a) + Lower(b)
  {
  }

  lemma LowerSpace(w: string)
    requires AllSpace(w)
    ensures Lower(w) == w
  {
  }

  /** Padding around a string does not change its trimmed form. */
  lemma TrimPadding(before: string, s: string, after: string)
    requires AllSpace(before) && AllSpace(after)
    ensures Trim(before + s + after) == Trim(s)
  {
    var padded := before + s + after;
    assert padded == before + (s + after);
    TrimStartSkipsSpace(before, s + after);
    assert TrimStart(padded) == TrimStart(s + after);
    TrimStartAppendSpace(s, after);
    var core := TrimStart(s);
    if |core| > 0 {
      TrimEndSkipsSpace(core, after);
      assert TrimEnd(TrimStart(padded)) == TrimEnd(core);
    } else {
      assert core == [];
      assert TrimStart(padded) == [];
    }
  }

  /** Trim returns exactly the text inside the white-space padding; an
      all-white-space string trims to the empty string. */
  lemma TrimExactly(before: string, core: string, after: string)
    requires AllSpace(before) && AllSpace(after)
    requires |core| == 0 || (!IsSpace(core[0]) && !IsSpace(core[|core| - 1]))
    ensures Trim(before + core + after) == core
  {
    TrimPadding(before, core, after);
    if |core| > 0 {
      TrimKeepsInner(core);
    }
  }

  lemma {:induction false} TrimStartSkipsSpace(w: string, s: string)
    requires AllSpace(w)
    ensures TrimStart(w + s) == TrimStart(s)
  {
    if |w| > 0 {
      assert (w + s)[1..] == w[1..] + s;
      TrimStartSkipsSpace(w[1..], s);
    } else {
      assert w + s == s;
    }
  }

  lemma {:induction false} TrimEndSkipsSpace(s: string, w: string)
    requires AllSpace(w)
    ensures TrimEnd(s + w) == TrimEnd(s)
  {
    if |w| > 0 {
      var w' := w[..|w| - 1];
      assert (s + w)[..|s + w| - 1] == s + w';
      TrimEndSkipsSpace(s, w');
    } else {
      assert s + w == s;
    }
  }

  /** Trailing white space survives TrimStart unless everything is space. */
  lemma {:induction false} TrimStartAppendSpace(s: string, w: string)
    requires AllSpace(w)
    ensures |TrimStart(s)| > 0 ==> TrimStart(s + w) == TrimStart(s) + w
    ensures |TrimStart(s)| == 0 ==> TrimStart(s + w) == []
  {
    if |s| == 0 {
      assert s + w == w + [];
      TrimStartSkipsSpace(w, []);
    } else if IsSpace(s[0]) {
      assert (s + w)[1..] == s[1..] + w;
      TrimStartAppendSpace(s[1..], w);
    }
  }
}

=== FILE: keybinds.dfy ===
/** Keys and key bindings as the configuration script builds them, and their
    conversion into the toolkit's menu key bindings. */
module Keybinds {
  import opened Toolkit

  /** A key named by the configuration script, compared by exact string. */
  datatype Key = Key(name: string)

  /** A key with the modifier keys that must be held with it. */
  datatype Keybind = Keybind(key: Key, modifiers: seq<Key>)

  /** A dynamically typed value of the scripting language; only the cases the
      binding constructor distinguishes are modelled. */
  datatype Dynamic = KeyValue(k: Key) | StringValue(s: string) | IntValue(i: int) | BoolValue(b: bool) | UnitValue

  /** The toolkit's menu modifiers. */
  datatype Modifier = Super | Ctrl | Alt | Shift

  /** The toolkit's menu key binding. */
  datatype MenuBind = MenuBind(key: KeyboardKey, modifiers: seq<Modifier>)

  /** The script's `Modifier::*` constants. */
  const SuperKey: Key := Key("Super")
  const CtrlKey: Key := Key("Ctrl")
  const AltKey: Key := Key("Alt")
  const ShiftKey: Key := Key("Shift")

  /** The constant that names each modifier. */
  function ModifierKey(m: Modifier): Key {
    match m
    case Super => SuperKey
    case Ctrl => CtrlKey
    case Alt => AltKey
    case Shift => ShiftKey
  }

  /** `Key::new`: the script string becomes the key's name verbatim. */
  function NewKey(s: string): (k: Key)
    ensures k.name == s
  {
    Key(s)
  }

  /** The keys among the script array's items, in order; items of any other
      type are dropped (a string is not cast to a key). */
  function KeysOf(items: seq<Dynamic>): (r: seq<Key>)
    ensures |r| <= |items|
    ensures forall k :: k in r <==> KeyValue(k) in items
  {
    if |items| == 0 then []
    else
      assert items == [items[0]] + items[1..];
      var rest := KeysOf(items[1..]);
      if items[0].KeyValue? then [items[0].k] + rest else rest
  }

  /** KeysOf distributes over concatenation, so it preserves order. */
  lemma {:induction false} KeysOfAppend(a: seq<Dynamic>, b: seq<Dynamic>)
    ensures KeysOf(a + b) == KeysOf(a) + KeysOf(b)
  {
    if |a| == 0 {
      assert a + b == b;
    } else {
      assert (a + b)[1..] == a[1..] + b;
      KeysOfAppend(a[1..], b);
    }
  }

  /** An array made only of keys yields exactly those keys. */
  lemma {:induction false} KeysOfAllKeys(items: seq<Dynamic>, ks: seq<Key>)
    requires |items| == |ks|
    requires forall i :: 0 <= i < |items| ==> items[i] == KeyValue(ks[i])
    ensures KeysOf(items) == ks
  {
    if |ks| > 0 {
      KeysOfAllKeys(items[1..], ks[1..]);
      assert ks == [ks[0]] + ks[1..];
    }
  }

  /** `Keybind::new`. */
  function NewKeybind(key: Key, items: seq<Dynamic>): (b: Keybind)
    ensures b.key == key
    ensures |b.modifiers| <= |items|
    ensures forall k :: k in b.modifiers <==> KeyValue(k) in items
  {
    Keybind(key, KeysOf(items))
  }

  /** A script key becomes a character key with the identical string. */
  function ToKeyboardKey(k: Key): (r: KeyboardKey)
    ensures r.Character?
  {
    Character(k.name)
  }

  /** A script string reaches the toolkit unchanged, and is a modifier
      exactly when it is one of the four names, compared case-sensitively. */
  lemma KeyFromString(s: string)
    ensures ToKeyboardKey(NewKey(s)) == Character(s)
    ensures ToModifier(NewKey(s)).Some? <==> s == "Super" || s == "Ctrl" || s == "Alt" || s == "Shift"
  {
  }

  /** Distinct script keys stay distinct as toolkit keys. */
  lemma ToKeyboardKeyInjective(a: Key, b: Key)
    requires ToKeyboardKey(a) == ToKeyboardKey(b)
    ensures a == b
  {
  }

  /** A key is a modifier exactly when it equals one of the four constants. */
  function ToModifier(k: Key): (r: Option<Modifier>)
    ensures r.Some? <==> k.name in {"Super", "Ctrl", "Alt", "Shift"}
    ensures r.Some? ==> ModifierKey(r.value) == k
  {
    if k == SuperKey then Some(Super)
    else if k == CtrlKey then Some(Ctrl)
    else if k == AltKey then Some(Alt)
    else if k == ShiftKey then Some(Shift)
    else None
  }

  /** Each modifier constant converts back to its modifier. */
  lemma ModifierRoundTrip(m: Modifier)
    ensures ToModifier(ModifierKey(m)) == Some(m)
  {
  }

  /** The recognised modifiers among `ks`, in order. */
  function ModifiersOf(ks: seq<Key>): (r: seq<Modifier>)
    ensures |r| <= |ks|
    ensures forall m :: m in r <==> ModifierKey(m) in ks
  {
    if |ks| == 0 then []
    else
      assert ks == [ks[0]] + ks[1..];
      var rest := ModifiersOf(ks[1..]);
      match ToModifier(ks[0])
      case Some(m) => [m] + rest
      case None => rest
  }

  /** ModifiersOf distributes over concatenation, so it preserves order. */
  lemma {:induction false} ModifiersOfAppend(a: seq<Key>, b: seq<Key>)
    ensures ModifiersOf(a + b) == ModifiersOf(a) + ModifiersOf(b)
  {
    if |a| == 0 {
      assert a + b == b;
    } else {
      assert (a + b)[1..] == a[1..] + b;
      ModifiersOfAppend(a[1..], b);
    }
  }

  /** Converting the modifier constants returns the modifiers they name. */
  lemma {:induction false} ModifiersOfConstants(ks: seq<Key>, ms: seq<Modifier>)
    requires |ks| == |ms|
    requires forall i :: 0 <= i < |ks| ==> ks[i] == ModifierKey(ms[i])
    ensures ModifiersOf(ks) == ms
  {
    if |ms| > 0 {
      ModifiersOfConstants(ks[1..], ms[1..]);
      ModifierRoundTrip(ms[0]);
      assert ms == [ms[0]] + ms[1..];
    }
  }

  /** `From<Keybind> for KeyBind`. */
  function ToMenuBind(b: Keybind): (r: MenuBind)
    ensures r.key == ToKeyboardKey(b.key)
    ensures |r.modifiers| <= |b.modifiers|
    ensures forall m :: m in r.modifiers <==> ModifierKey(m) in b.modifiers
  {
    MenuBind(ToKeyboardKey(b.key), ModifiersOf(b.modifiers))
  }
}

=== FILE: recent.dfy ===
/** The most-recently-used list of opened files: a deduplicated sequence with
    the most recent path last, capped at ten entries. */
module RecentFiles {
  import opened Toolkit

  /** The hard cap on the number of remembered paths. */
  const Cap: nat := 10

  datatype Recent = Recent(paths: seq<Path>)

  predicate NoDup(s: seq<Path>) {
    forall i, j :: 0 <= i < j < |s| ==> s[i] != s[j]
  }

  predicate IsSuffix(r: seq<Path>, s: seq<Path>) {
    |r| <= |s| && r == s[|s| - |r|..]
  }

  /** The list a fresh configuration starts with. */
  function Default(): (r: Recent)
    ensures |r.paths| == 0
    ensures NoDup(r.paths)
  {
    Recent([])
  }

  /** Every path other than `p`, in the original order. */
  function Retain(s: seq<Path>, p: Path): (r: seq<Path>)
    ensures |r| <= |s|
  {
    if |s| == 0 then []
    else if s[0] == p then Retain(s[1..], p)
    else [s[0]] + Retain(s[1..], p)
  }

  /** Retain drops every occurrence of `p` and keeps every other path as
      often as it occurred. */
  lemma {:induction false} RetainCount(s: seq<Path>, p: Path)
    ensures multiset(Retain(s, p)) == multiset(s)[p := 0]
  {
    if |s| > 0 {
      RetainCount(s[1..], p);
      assert s == [s[0]] + s[1..];
      assert multiset(s) == multiset([s[0]]) + multiset(s[1..]);
      if s[0] != p {
        var rest := Retain(s[1..], p);
        assert multiset([s[0]] + rest) == multiset([s[0]]) + multiset(rest);
      }
    }
  }

  /** Removing an absent path changes nothing. */
  lemma {:induction false} RetainAbsent(s: seq<Path>, p: Path)
    requires p !in s
    ensures Retain(s, p) == s
  {
    if |s| > 0 {
      RetainAbsent(s[1..], p);
      assert s == [s[0]] + s[1..];
    }
  }

  /** Removing a path from a duplicate-free list leaves it duplicate-free. */
  lemma {:induction false} RetainNoDup(s: seq<Path>, p: Path)
    ensures NoDup(s) ==> NoDup(Retain(s, p))
  {
    if |s| > 0 && NoDup(s) {
      RetainNoDup(s[1..], p);
      RetainMembers(s[1..], p);
      assert s[0] !in s[1..];
    }
  }

  /** Retain keeps exactly the paths other than `p`. */
  lemma RetainMembers(s: seq<Path>, p: Path)
    ensures forall x :: x in Retain(s, p) <==> x in s && x != p
  {
    var r := Retain(s, p);
    RetainCount(s, p);
    forall x ensures x in r <==> x in s && x != p {
      assert x in r <==> x in multiset(r);
      assert x in s <==> x in multiset(s);
    }
  }

  /** Retain distributes over concatenation, so it keeps relative order. */
  lemma {:induction false} RetainAppend(a: seq<Path>, b: seq<Path>, p: Path)
    ensures Retain(a + b, p) == Retain(a, p) + Retain(b, p)
  {
    if |a| == 0 {
      assert a + b == b;
    } else {
      assert (a + b)[1..] == a[1..] + b;
      RetainAppend(a[1..], b, p);
    }
  }

  /** The oldest entries are dropped until at most `Cap` remain. */
  function DropOldest(s: seq<Path>): (r: seq<Path>)
    ensures IsSuffix(r, s)
    ensures |r| <= Cap
    ensures |s| <= Cap ==> r == s
    ensures |s| >= Cap ==> |r| == Cap
  {
    if |s| > Cap then s[|s| - Cap..] else s
  }

  /** The list after `p` is opened: any earlier occurrence removed, `p`
      appended as the most recent, the oldest entries dropped. */
  function Added(s: seq<Path>, p: Path): (r: seq<Path>)
    ensures |r| > 0 && r[|r| - 1] == p
    ensures multiset(r)[p] == 1
    ensures |r| <= Cap
    ensures |r| == if |Retain(s, p)| < Cap then |Retain(s, p)| + 1 else Cap
    ensures IsSuffix(r, Retain(s, p) + [p])
    ensures forall x :: x in r ==> x == p || x in s
    ensures p in s ==> |r| <= |s|
    ensures NoDup(s) ==> NoDup(r)
  {
    var kept := Retain(s, p) + [p];
    KeptFacts(s, p);
    var r := DropOldest(kept);
    SuffixFacts(kept, r, p);
    r
  }

  lemma KeptFacts(s: seq<Path>, p: Path)
    ensures var kept := Retain(s, p) + [p];
      && multiset(kept)[p] == 1
      && (forall x :: x in kept ==> x == p || x in s)
      && (p in s ==> |kept| <= |s|)
      && (NoDup(s) ==> NoDup(kept))
  {
    KeptCount(s, p);
    KeptMembers(s, p);
    RetainShorter(s, p);
    KeptNoDup(s, p);
  }

  lemma KeptCount(s: seq<Path>, p: Path)
    ensures multiset(Retain(s, p) + [p])[p] == 1
  {
    var rest := Retain(s, p);
    RetainCount(s, p);
    assert multiset(rest + [p]) == multiset(rest) + multiset([p]);
  }

  lemma KeptMembers(s: seq<Path>, p: Path)
    ensures forall x :: x in Retain(s, p) + [p] ==> x == p || x in s
  {
    var rest := Retain(s, p);
    RetainCount(s, p);
    forall x | x in rest + [p] ensures x == p || x in s {
      if x != p {
        assert x in multiset(rest);
        assert x in multiset(s);
      }
    }
  }

  lemma KeptNoDup(s: seq<Path>, p: Path)
    ensures NoDup(s) ==> NoDup(Retain(s, p) + [p])
  {
    var rest := Retain(s, p);
    RetainMembers(s, p);
    RetainNoDup(s, p);
    if NoDup(s) {
      var kept := rest + [p];
      forall i, j | 0 <= i < j < |kept| ensures kept[i] != kept[j] {
        if j == |rest| { assert kept[i] in rest; }
      }
    }
  }

  lemma SuffixFacts(kept: seq<Path>, r: seq<Path>, p: Path)
    requires |r| > 0 && IsSuffix(r, kept)
    requires kept[|kept| - 1] == p && multiset(kept)[p] == 1
    ensures r[|r| - 1] == p
    ensures multiset(r)[p] == 1
    ensures forall x :: x in r ==> x in kept
    ensures NoDup(kept) ==> NoDup(r)
  {
    var k := |kept| - |r|;
    assert kept == kept[..k] + r;
    assert multiset(kept) == multiset(kept[..k]) + multiset(r);
    assert r[|r| - 1] == kept[|kept| - 1];
    forall i, j | 0 <= i < j < |r| && NoDup(kept) ensures r[i] != r[j] {
      assert r[i] == kept[k + i] && r[j] == kept[k + j];
    }
  }

  /** Removing a present path makes the list shorter. */
  lemma {:induction false} RetainShorter(s: seq<Path>, p: Path)
    ensures |Retain(s, p)| <= |s|
    ensures p in s ==> |Retain(s, p)| < |s|
    ensures NoDup(s) && p in s ==> |Retain(s, p)| == |s| - 1
  {
    if |s| > 0 {
      RetainShorter(s[1..], p);
      assert s == [s[0]] + s[1..];
      if NoDup(s) && s[0] == p {
        assert p !in s[1..];
        RetainAbsent(s[1..], p);
      }
    }
  }

  /** `Recent::add`, with its removal loop. */
  method Add(rec: Recent, p: Path) returns (r: Recent)
    ensures r.paths == Added(rec.paths, p)
  {
    var kept := Retain(rec.paths, p) + [p];
    var paths := kept;
    while |paths| > Cap
      invariant IsSuffix(paths, kept)
      invariant |paths| >= Cap || paths == kept
      decreases |paths|
    {
      paths := paths[1..];
    }
    assert paths == DropOldest(kept);
    r := Recent(paths);
  }

  /** Opening the same path twice in a row is the same as opening it once. */
  lemma {:induction false} AddIdempotent(s: seq<Path>, p: Path)
    ensures Added(Added(s, p), p) == Added(s, p)
  {
    var r := Added(s, p);
    LastOnlyRetained(r, p);
    assert Added(r, p) == DropOldest(Retain(r, p) + [p]);
  }

  /** When `p` occurs once, at the end, removing and re-appending it is the
      identity. */
  lemma LastOnlyRetained(r: seq<Path>, p: Path)
    requires |r| > 0 && r[|r| - 1] == p && multiset(r)[p] == 1
    ensures Retain(r, p) + [p] == r
  {
    var front := r[..|r| - 1];
    assert r == front + [p];
    OnlyAtEnd(r, p);
    RetainAbsent(front, p);
    RetainAppend(front, [p], p);
    assert [p][1..] == [];
    assert Retain([p], p) == [];
    assert Retain(r, p) == front;
  }

  /** A path counted once and standing last occurs nowhere before the end. */
  lemma OnlyAtEnd(r: seq<Path>, p: Path)
    requires |r| > 0 && r[|r| - 1] == p && multiset(r)[p] == 1
    ensures p !in r[..|r| - 1]
  {
    var front := r[..|r| - 1];
    assert r == front + [p];
    assert multiset(r) == multiset(front) + multiset([p]);
  }

  /** Re-opening a listed path moves it to the most recent position without
      growing the list. */
  lemma AddPresentMovesToEnd(s: seq<Path>, p: Path)
    requires NoDup(s) && |s| <= Cap && p in s
    ensures Added(s, p) == Retain(s, p) + [p]
    ensures |Added(s, p)| == |s|
  {
    RetainShorter(s, p);
  }

  /** A new path added to a full list evicts exactly the oldest entry. */
  lemma AddAtCapEvictsOldest(s: seq<Path>, p: Path)
    requires |s| == Cap && p !in s
    ensures Added(s, p) == s[1..] + [p]
  {
    RetainAbsent(s, p);
  }

  /** Below the cap no path is lost. */
  lemma AddBelowCapKeepsAll(s: seq<Path>, p: Path, x: Path)
    requires |s| < Cap && x in s
    ensures x in Added(s, p)
  {
    RetainMembers(s, p);
    RetainShorter(s, p);
    if p !in s { RetainAbsent(s, p); }
    var r := Added(s, p);
    assert r[|r| - 1] in r;
  }
}

=== FILE: toolkit.dfy ===
/** Types owned by the GUI toolkit and its widgets. Their internals are not
    part of this model: they appear only as opaque types, and the operations
    on them are passed in as function values wherever they are needed. */
module Toolkit {

  /** The conventional optional value. */
  datatype Option<+T> = None | Some(value: T)

  /** A file-system path, as the file picker and the recent list see it.
      Its equality is the platform's path equality (component-wise), not
      string equality; no path is ever taken apart. */
  type Path(==)

  /** The contents of a text-editor widget (text plus cursor and selection). */
  type Content(==)

  /** One editing action emitted by the text-editor widget. */
  type EditAction(==)

  /** One node of the rendered markdown tree. */
  type MdItem(==)

  /** An event internal to the file-picker window. */
  type DialogEvent(==)

  /** Everything a key press carries besides its logical key. */
  type KeyDetail(==)

  /** The named (non-character) keys the model distinguishes. */
  datatype NamedKey = Tab | Enter | Escape | Backspace | Delete | OtherNamed(code: nat)

  /** The toolkit's logical keyboard key. */
  datatype KeyboardKey = Named(name: NamedKey) | Character(chars: string) | Unidentified

  /** A key press as delivered to a text editor's key-binding hook. */
  datatype KeyPress = KeyPress(key: KeyboardKey, detail: KeyDetail)
}

/** The application's message type and the tasks an update hands back to the
    runtime. Only the variants the session logic inspects are modelled. */
module Messages {
  import opened Toolkit

  /** What the file picker reports when it closes. */
  datatype DialogResult = Open(paths: seq<Path>) | Cancel

  /** The kinds of file picker the session can open. */
  datatype DialogKind = OpenFile

  datatype Message =
    | OpenFilePicker
    | DialogMessage(event: DialogEvent)
    | OpenFileResult(result: DialogResult)
    | OpenEditor(path: Option<Path>)
    | Edit(action: EditAction)
    | Url(url: string)

  /** Work handed back to the runtime. `Done` re-enters the update loop with
      its message; the dialog variants stand for the picker's own tasks. */
  datatype Task =
    | NoTask
    | Done(message: Message)
    | DialogOpened(kind: DialogKind)
    | DialogForwarded(event: DialogEvent)
}
